=== FILE: README.md ===
# The Invariant home page: story classification and display rules

This project models the client-side rules engine of the magazine site's home
page, and proves properties about it. The engine is pure. It covers:

- **Classification.** A fixed, case-sensitive table maps a story's section to
  one of eight topics. Per-topic counts are taken over the published and
  decaying stories. The breaking-news predicate `isHotNews` is an ordered
  chain of rules: the editorial flag, section vetoes, title vetoes, urgency
  words, and a publication-time window measured against "now".
- **Composition.** The stories are split into the newsdesk (breaking) strip
  and the regular grid. The grid can be filtered by the selected topic and
  holds at most 6 cards (no topic selected) or at most 20 (a topic selected);
  only the first card is enlarged, and only when no topic is selected. There are two empty
  states. The topic selection is a two-state machine. One function models the
  state update after a story poll resolves.
- **Cards.** The article card and the breaking-news card derive a permalink,
  an excerpt, an image, an author and a section label, each with a fallback.
  The article card also derives an opacity, a colour tier and a badge or
  indicator from the story's freshness score.

Modelling choices:

- "now" and `published_at` are integer milliseconds since the epoch.
  `published_at` is `Option<int>`: an absent or unparsable date is `None`.
  This changes nothing, because the source's `NaN` hours compare false.
- Optional JSON fields are `Option` values. JavaScript's `x || d` on a string
  is `Stories.OrElse`, where the empty string is falsy. `??` on the freshness
  score is `StoryCard.Freshness`, so a score of 0 is kept.
- `toLowerCase` changes only the ASCII letters A-Z. `includes` is substring
  search (`Text.Includes`).
- The score and the opacity are `real`.

Modules, one per component:

- `Wrappers`: `Option`.
- `Seqs`: order-preserving filtering and counting.
- `Text`: lower-casing and substring search.
- `Stories`: the story record.
- `Topics`: catalog, section table and counts.
- `HotNews`: the breaking-news predicate.
- `Page`: partition, selection, grid and newsdesk.
- `Poll`: the post-fetch state update and reachable states.
- `CardFields`: fields shared by both cards.
- `StoryCard` and `HotNewsCard`: the two cards.

Two facts of the code worth stating up front:

- The priority default is applied with `|| 3` (`app/page.tsx` line 196), so a
  priority of 0 also reads as 3 (`HotNews.ZeroPriorityReadsAsDefault`).
- Nothing in the card code confines the freshness score to 0-100. Every
  freshness property here holds for any real score.

## Model

| member | source | states |
|---|---|---|
| Topics.TableTargetsAreTopicKeys | app/page.tsx:10-31 | every value of the section table is one of the eight topic keys, so every topic a lookup yields is one |
| Topics.LookupIsCaseSensitive | app/page.tsx:10-31 | lookup is exact: `News` maps to Society and `news` to no topic; likewise `Science`/`science`; the empty section maps to none |
| Topics.CatalogMatchesKeys | app/page.tsx:59-68 | the catalog has eight entries, in the same order as the count keys; the keys are pairwise distinct and each entry is titled by its key |
| Topics.GetTopicCounts | app/page.tsx:34-57 | starting from the all-zero table (`Topics.ZeroCounts`, lines 35-44), the result has exactly the eight keys, and each holds the number of published/decaying stories (`Stories.Visible`, line 47) whose section maps to that key |
| Topics.TallyStep | app/page.tsx:46-54 | one `forEach` step raises exactly the story's topic by one, and only when the story is displayable and mapped |
| Topics.SumOfTopicCounts | app/page.tsx:34-57 | the counts sum to at most the number of published/decaying stories, with equality iff every such story's section is in the table |
| Seqs.Filter | app/page.tsx:114-116 | filtering keeps at most the input's length, and an element is kept iff it is in the input and passes |
| Seqs.FilterCharacterisation | app/page.tsx:204-218 | a filter keeps input order and keeps each passing element with its full multiplicity, nothing else |
| Text.Includes | app/page.tsx:156-157 | `includes` holds iff the word occurs as a contiguous run somewhere in the text |
| Text.SubstringNotWord | app/page.tsx:156-157 | matching is by substring: `how` is found in `show` and `turn` in `return` |
| Topics.TopicOfSection | app/page.tsx:10-31 | a section has a topic iff it is a key of the table, and that topic is one of the eight keys |
| Topics.TopicOf | app/page.tsx:48-49 | the section is read through `Stories.OrElse` (the logical-or fallback to `''`): an absent or empty section has no topic; any other section has the table's topic for it, always one of the eight keys |
| HotNews.IsHotNews | app/page.tsx:149-202 | a breaking story never has a core veto word or a flagged-veto section; an unflagged breaking story is outside the editorial sections, free of all veto words, and has an urgency word or is a news-section story published at most 12 h before now |
| HotNews.EditorialNeverHot | app/page.tsx:151-181 | a title containing why/how/choosing/turn, or a section arts & ideas/culture/ideas/philosophy, is never breaking, flagged or not |
| HotNews.FlaggedRule | app/page.tsx:151-163 | a flagged story is breaking iff its title has no core veto word and its section is not a flagged-veto section |
| HotNews.FlagOverridesExtendedVetoes | app/page.tsx:151-181 | with no core veto, a science section or an extended-only veto word (movement/reshapes/audiences/younger) makes a story breaking when flagged and not breaking when unflagged |
| HotNews.ExtendedVetoBeatsUrgency | app/page.tsx:176-186 | unflagged, an extended veto word wins over any urgency word |
| HotNews.UrgencyMakesHot | app/page.tsx:169-186 | unflagged, outside editorial sections and free of veto words, an urgency word makes a story breaking at every instant |
| HotNews.TimestampRule | app/page.tsx:189-199 | for an unflagged, keyword-free story in news/events/global/breaking: breaking iff it has a publication time and elapsed ms is ≤ 6 h, or ≤ 12 h with priority (default 3) ≥ 5 |
| HotNews.HoursWindow | app/page.tsx:192-197 | comparing elapsed hours with a whole number of hours is the same as comparing elapsed milliseconds |
| HotNews.NoTimestampNotHot | app/page.tsx:184-201 | an unflagged story with no urgency word and no publication time is never breaking |
| HotNews.HotIsAntitoneInNow | app/page.tsx:189-199 | breaking at a later instant implies breaking at every earlier instant |
| HotNews.ZeroPriorityReadsAsDefault | app/page.tsx:196 | `HotNews.Priority` (the logical-or fallback to 3) reads a priority of 0 as 3, and such a story classifies exactly like one with an absent priority |
| HotNews.VetoIgnoresCase | app/page.tsx:153-179 | a title `WHY Markets Move` is vetoed, because titles are lower-cased (`Text.ToLower`, ASCII letters only) before matching |
| HotNews.BreakingTitleScenario | app/page.tsx:176-186 | `Breaking: X` in section News is breaking through the urgency rule at every instant |
| HotNews.FlaggedPhilosophyScenario | app/page.tsx:151-161 | a flagged `Why constants matter` story in Philosophy is not breaking |
| HotNews.GlobalPriorityScenario | app/page.tsx:189-199 | a keyword-free Global story with priority 6 is breaking 8 h after publication and not 13 h after |
| Page.HotStories | app/page.tsx:204 | the breaking list holds exactly the breaking stories, each as often as the feed does, in feed order |
| Page.RegularStories | app/page.tsx:207-216 | the regular list holds exactly the non-breaking stories (of the selected topic, when one is selected), each as often as the feed does, in feed order |
| Page.HotRegularPartition | app/page.tsx:204-218 | with no filter, the breaking and regular lists are disjoint, together hold every story exactly as often as the feed does, and both keep feed order |
| Page.FilteredRegular | app/page.tsx:207-216 | with topic T selected, a story is regular iff it is a non-breaking story mapping to T; each such story appears as often as in the feed, and the list keeps feed order |
| Page.FilteredWithinCount | app/page.tsx:210-215 | when all stored stories are displayable, the filtered list is no longer than T's topic count |
| Page.HotCountedButNotListed | app/page.tsx:204-233 | a displayable breaking story is in the breaking list and counts toward its topic, but is never in the grid |
| Page.OnTopicClick | app/page.tsx:403 | a click on k (`Page.ClickTopic`) clears the selection iff k was selected and otherwise selects k; it changes nothing but the selection, and a click on a catalog topic keeps a valid state valid |
| Page.ClickTwice | app/page.tsx:403 | a click on k deselects k if selected and selects k otherwise, so two clicks on k end at no selection unless k was selected, which leaves k selected again; from no selection they return to no selection |
| Page.SelectionStaysValid | app/page.tsx:396-403 | clicks on catalog topics and clearing keep the selection either absent or one of the eight keys |
| Page.OnClearFilter | app/page.tsx:423-425 | the "Clear filter" button here and the "View all stories" button at line 358 both apply `Page.ClearFilter`: clearing always yields no selection, leaves the stories and loading flag untouched, and keeps a valid state valid |
| Page.TopicTitle | app/page.tsx:354 | the catalog lookup finds a title iff the key is one of the eight, and the title equals the key |
| Page.ComposeFeatured | app/page.tsx:320-374 | spinner iff loading; awakening (stored and breaking counts) iff loaded, unfiltered and no regular story; no-stories-in-topic iff loaded, filtered and none; otherwise min(n, cap) cards of the first regular stories in order, where the cap (`Page.DisplayCap`) is 6 without a topic and 20 with one, and only the first card is large, only without a topic (`Page.Cards`, lines 366-371) |
| Page.Newsdesk | app/page.tsx:263 | the newsdesk is shown iff loading is over and some stored story is breaking, and it then lists the breaking stories |
| Page.SelectThenDeselectRestores | app/page.tsx:403 | selecting a topic and clicking it again restores the state and the unfiltered featured area |
| Poll.OnStoriesFetched | app/page.tsx:91-135 | an array body stores exactly its published/decaying (`Stories.Visible`) elements, each as often as in the body, in order; another body stores `[]`; a throw keeps the stories. Loading ends every time and the selection is untouched |
| Poll.ReachableStatesValid | app/page.tsx:91-135 | any sequence of polls, topic clicks and clears keeps the stored stories displayable and the selection valid |
| Poll.HiddenStoriesNeverShown | app/page.tsx:114-116 | in a reachable state a draft or archived story is in neither the breaking list nor the grid |
| Poll.EmptyFeedScenario | app/page.tsx:113-131 | an empty feed gives no breaking and no regular stories, all counts zero, the awakening placeholder with zeros, and no newsdesk |
| CardFields.StoryUrl | components/StoryCard.tsx:12 | the permalink is the `/piece/?id=` prefix followed by the id |
| CardFields.UrlRoundTrip | components/StoryCard.tsx:12 | stripping the `/piece/?id=` prefix from the permalink yields the story's id; this is a string-level round trip, since the id is inserted without URL encoding |
| CardFields.UrlInjective | components/StoryCard.tsx:12 | distinct ids give distinct permalinks |
| CardFields.Excerpt | components/StoryCard.tsx:13 | a non-empty first-block text gives its prefix of length min(limit, length); otherwise the summary, or `''` (the fallbacks are `Stories.OrElse`) |
| CardFields.ExcerptLimitsNest | components/StoryCard.tsx:13 | the excerpt under a shorter limit is a prefix of the excerpt under a longer one |
| CardFields.ImageUrl | components/StoryCard.tsx:15 | the image is `image_url` when non-empty, else `/favicon.svg`; never empty |
| StoryCard.Opacity | components/StoryCard.tsx:20 | opacity lies in [0.3, 1.0], is 1.0 iff freshness ≥ 20, and below 20 is the larger of 0.3 and freshness/20 |
| StoryCard.OpacityMonotone | components/StoryCard.tsx:20 | opacity is non-decreasing in freshness |
| StoryCard.HexInjective | components/StoryCard.tsx:23-28 | the four tier colours `#4CAF50`, `#FFC107`, `#FF9800`, `#F44336` are pairwise distinct, so the painted CSS value identifies the tier |
| StoryCard.ColorOf | components/StoryCard.tsx:23-28 | green iff ≥ 80, yellow iff in [50, 80), orange iff in [20, 50), red iff < 20 |
| StoryCard.AuthorName | components/StoryCard.tsx:14 | the author is the first author's name when non-empty, else `The Editors`; never empty |
| StoryCard.SectionLabel | components/StoryCard.tsx:46 | the label is the section when non-empty, else `Article`; never empty |
| StoryCard.Render | components/StoryCard.tsx:12-47 | the link is the prefix plus the id; the excerpt is the first-block prefix of length min(150, length), else the summary, else `''`; the colour follows the four freshness tiers; exactly one of badge and indicator is shown, the indicator iff the story is fresh; full opacity iff score ≥ 20; author, image and label each take the story's non-empty value, else `The Editors`, `/favicon.svg` and `Article`; below 20 the opacity is max(0.3, score/20); `large` is passed through |
| StoryCard.ZeroFreshnessKept | components/StoryCard.tsx:16-27 | `StoryCard.Freshness` (`freshness ?? 100`) keeps a score of 0: red, opacity 0.3, badge shown |
| StoryCard.AbsentFreshnessDefaults | components/StoryCard.tsx:16-27 | `StoryCard.Freshness` reads an absent score as 100: green, opaque, and showing the indicator unless `is_fresh` is `false` |
| StoryCard.OverrideShowsBadgeAtFullOpacity | components/StoryCard.tsx:17-38 | `StoryCard.IsFresh` (`is_fresh !== false && freshness >= 20`) is false for `is_fresh: false` even with score ≥ 20, so the badge shows, at opacity 1.0 |
| StoryCard.FreshnessBoundary | components/StoryCard.tsx:17-20 | by `StoryCard.IsFresh`, score 20 is fresh and opaque with no badge; 19.999 shows the badge at opacity 19.999/20 |
| HotNewsCard.Render | components/HotNewsCard.tsx:11-13 | the permalink is the prefix plus the id; the excerpt is the first-block prefix of length min(100, length), else the summary, else `''`; the image is `image_url` when non-empty, else `/favicon.svg` |
| HotNewsCard.CardsAgreeOnLinkAndImage | components/HotNewsCard.tsx:11-13 | both cards give a story the same permalink and image |
| HotNewsCard.ExcerptIsPrefixOfArticleExcerpt | components/HotNewsCard.tsx:12 | the breaking card's excerpt is a prefix of the article card's excerpt |

## Left out

- Fetching, timers, logging and React state hooks (`app/page.tsx` lines 75-145 and 221-230). These are network I/O, `setInterval`/`clearInterval` and `console` output. A poll is reduced to its outcome (`Poll.FetchOutcome`), and only the state update after it resolves is modelled.
- Overlapping polls resolving out of order are not modelled. This is an asynchronous race in which the last response wins. Events are applied one at a time (`Poll.Run`).
- The clock is not re-read for each story. The source calls `Date.now()` separately for each story and for each of the two filters. The model fixes one `now` per render, so it does not model a story landing in both lists, or in neither, at a window boundary.
- Date parsing and locale date display are left out. Timestamps are integers, and the card's date line is not modelled.
- Number formatting is left out: the badge's `Math.round` text and IEEE-754 floating point. Scores and opacities are exact reals.
- Full Unicode case folding is left out. Only ASCII letters are lower-cased.
- UTF-16 lengths are left out. Strings are sequences of Unicode scalar values, so lengths (for example the 150/100 excerpt limits) count characters, not UTF-16 code units; the two differ only for characters outside the Basic Multilingual Plane.
- Ill-typed JSON fields are left out. The story record fixes every field's type:
  - Title, section, status and summary are strings or absent. In the source, a truthy non-string title throws at `title?.substring` (`app/page.tsx` lines 105 and 122), so the poll keeps the old list. A truthy non-string title or section throws at `toLowerCase` (lines 153-154 and 165-166) during classification.
  - `is_hot_news` and `is_fresh` are booleans or absent. In the source, `is_fresh: "false"` passes `!== false` (`components/StoryCard.tsx` line 17) and `is_hot_news: "true"` fails `=== true`; the model cannot express such values.
  - `priority` is an integer and `freshness` a real, or absent. A non-numeric value compares by JavaScript coercion in the source.
  - `published_at` is the parsed instant in milliseconds, or absent. In the source it is a date string tested for truthiness at `app/page.tsx` line 190, so a falsy value such as the number `0` skips the window, while the model reads `Some(0)` as present.
- JavaScript object-prototype lookups on the section table (a section named `constructor`) are left out. The table is a finite map.
- Non-object elements in the feed array are left out. Every element is a story record.
- Non-string `id` values are left out. The id is a string, and an absent id is not modelled.
- Markup and styling are left out: class names, icons in layout, the masthead, hero, quote, newsletter and footer.
- `components/HeaderStats.tsx` is not part of this model. It is a wall-clock ticker and a stats poll whose only logic is `|| 0` display defaults.
- `src/App.tsx`, `app/layout.tsx` and `tailwind.config.js` are not part of this model. They hold sample data, page metadata and styling configuration.

=== FILE: card_fields.dfy ===
/**
 * Fields both story cards derive the same way: the permalink, the excerpt
 * (differing only in its length limit) and the image with its placeholder.
 */
module CardFields {
  import opened Wrappers
  import opened Stories
  import opened Seqs

  const PiecePrefix: string := "/piece/?id="
  const PlaceholderImage: string := "/favicon.svg"

  /** The story's permalink: the detail-view path with the id as its query parameter. */
  function StoryUrl(id: string): (url: string)
    ensures |url| == |PiecePrefix| + |id|
    ensures url[..|PiecePrefix|] == PiecePrefix && url[|PiecePrefix|..] == id
  {
    PiecePrefix + id
  }

  /** The detail view's reading of a permalink: the id after the prefix, if the prefix is there. */
  function IdFromUrl(url: string): (id: Option<string>)
    ensures id.Some? <==> |url| >= |PiecePrefix| && url[..|PiecePrefix|] == PiecePrefix
  {
    if |url| >= |PiecePrefix| && url[..|PiecePrefix|] == PiecePrefix then Some(url[|PiecePrefix|..])
    else None
  }

  /** The permalink carries the story id back unchanged. */
  lemma UrlRoundTrip(id: string)
    ensures IdFromUrl(StoryUrl(id)) == Some(id)
  {
  }

  /** Distinct stories get distinct permalinks. */
  lemma UrlInjective(a: string, b: string)
    requires StoryUrl(a) == StoryUrl(b)
    ensures a == b
  {
  }

  /** The first body block's text: absent when there are no blocks, no first block, or no text. */
  function FirstBlockText(s: Story): Option<string> {
    if s.blocks.Some? && |s.blocks.value| > 0 then s.blocks.value[0].text else None
  }

  /**
   * The card excerpt with a length limit:
   * the first `limit` characters of the first block's text when that text is
   * non-empty, else the summary when non-empty, else the empty string.
   */
  function Excerpt(s: Story, limit: nat): (r: string)
    requires limit > 0
    ensures FirstBlockText(s).Some? && FirstBlockText(s).value != "" ==>
      var text := FirstBlockText(s).value;
      |r| == Min(limit, |text|) && r <= text
    ensures FirstBlockText(s).None? || FirstBlockText(s).value == "" ==>
      r == if s.summary.Some? then s.summary.value else ""
  {
    var lead := match FirstBlockText(s)
      case Some(text) => text[..Min(limit, |text|)]
      case None => "";
    OrElse(Some(lead), OrElse(s.summary, ""))
  }

  /** A longer limit only extends the excerpt: the shorter excerpt is a prefix of the longer one. */
  lemma ExcerptLimitsNest(s: Story, short: nat, long: nat)
    requires 0 < short <= long
    ensures Excerpt(s, short) <= Excerpt(s, long)
  {
  }

  /** The image, falling back to the site icon when absent or empty; never empty. */
  function ImageUrl(s: Story): (r: string)
    ensures r != ""
    ensures s.imageUrl.Some? && s.imageUrl.value != "" ==> r == s.imageUrl.value
    ensures s.imageUrl.None? || s.imageUrl.value == "" ==> r == PlaceholderImage
  {
    OrElse(s.imageUrl, PlaceholderImage)
  }
}

=== FILE: hot_news.dfy ===
/**
 * The breaking-news predicate `isHotNews`: a precedence-ordered chain of
 * editorial flag, section vetoes, title vetoes, urgency words and a
 * publication-time window. Titles and sections are compared lower-cased;
 * words are matched as substrings.
 */
module HotNews {
  import opened Wrappers
  import opened Text
  import opened Stories

  /** Title words that veto even a flagged story. */
  const CoreVetoWords: seq<string> := ["why", "how", "choosing", "turn"]

  /** Title words that veto an unflagged story: the core list and four more. */
  const ExtendedVetoWords: seq<string> := CoreVetoWords + ["movement", "reshapes", "audiences", "younger"]

  /** Title words that make an unflagged story breaking. */
  const UrgencyWords: seq<string> := ["breaking", "urgent", "alert", "update", "developing", "just in"]

  /** Lower-cased sections that veto even a flagged story. */
  const FlaggedVetoSections: seq<string> := ["arts & ideas", "culture", "ideas", "philosophy"]

  /** Lower-cased sections that are never breaking for an unflagged story. */
  const EditorialSections: seq<string> := FlaggedVetoSections + ["science & research", "science"]

  /** Lower-cased sections whose recent stories are breaking. */
  const NewsSections: seq<string> := ["news", "events", "global", "breaking"]

  const MsPerHour: int := 1000 * 60 * 60
  const DefaultPriority: int := 3
  const HighPriority: int := 5
  const RecentHours: real := 6.0
  const HighPriorityHours: real := 12.0

  /** The title, read as empty when absent, lower-cased. */
  function LowerTitle(s: Story): string {
    ToLower(OrElse(s.title, ""))
  }

  /** The section, read as empty when absent, lower-cased. */
  function LowerSection(s: Story): string {
    ToLower(OrElse(s.section, ""))
  }

  /** The editorial breaking-news flag is present and exactly `true`. */
  predicate Flagged(s: Story) {
    s.metadata.Some? && s.metadata.value.isHotNews == Some(true)
  }

  /** The priority; an absent or zero priority (both falsy) reads as 3. */
  function Priority(s: Story): (p: int)
    ensures p != 0
    ensures s.metadata.None? || s.metadata.value.priority.None? ==> p == DefaultPriority
    ensures s.metadata.Some? && s.metadata.value.priority == Some(0) ==> p == DefaultPriority
    ensures (&& s.metadata.Some? && s.metadata.value.priority.Some?
             && s.metadata.value.priority.value != 0)
         ==> p == s.metadata.value.priority.value
  {
    match s.metadata
    case None => DefaultPriority
    case Some(m) =>
      match m.priority
      case None => DefaultPriority
      case Some(v) => if v == 0 then DefaultPriority else v
  }

  /** Because the default replaces any falsy priority, a priority of 0 behaves exactly like an absent one. */
  lemma ZeroPriorityReadsAsDefault(s: Story, now: int)
    requires s.metadata.Some? && s.metadata.value.priority == Some(0)
    ensures Priority(s) == DefaultPriority
    ensures IsHotNews(s, now) == IsHotNews(s.(metadata := Some(s.metadata.value.(priority := None))), now)
  {
  }

  /** Hours elapsed from `publishedAt` to `now`, both in milliseconds. */
  function HoursSince(now: int, publishedAt: int): real {
    (now - publishedAt) as real / MsPerHour as real
  }

  /** The publication-time rule: within 6 hours, or within 12 hours at priority 5 or more. */
  predicate RecentEnough(hours: real, priority: int) {
    hours <= RecentHours || (hours <= HighPriorityHours && priority >= HighPriority)
  }

  /** `isHotNews` for story `s` at the instant `now` (milliseconds since the epoch). */
  predicate IsHotNews(s: Story, now: int)
    ensures IsHotNews(s, now) ==>
      !IncludesAny(LowerTitle(s), CoreVetoWords) && LowerSection(s) !in FlaggedVetoSections
    ensures IsHotNews(s, now) && !Flagged(s) ==>
      && LowerSection(s) !in EditorialSections
      && !IncludesAny(LowerTitle(s), ExtendedVetoWords)
      && (|| IncludesAny(LowerTitle(s), UrgencyWords)
          || (&& LowerSection(s) in NewsSections && s.publishedAt.Some?
              && HoursSince(now, s.publishedAt.value) <= HighPriorityHours))
  {
    var title := LowerTitle(s);
    var section := LowerSection(s);
    if Flagged(s) then
      !(IncludesAny(title, CoreVetoWords) || section in FlaggedVetoSections)
    else if section in EditorialSections then false
    else if IncludesAny(title, ExtendedVetoWords) then false
    else if IncludesAny(title, UrgencyWords) then true
    else if section in NewsSections && s.publishedAt.Some? then
      RecentEnough(HoursSince(now, s.publishedAt.value), Priority(s))
    else false
  }

  /**
   * A title with a core veto word, or a section in the flagged-veto list, is
   * never breaking, whatever the editorial flag says.
   */
  lemma EditorialNeverHot(s: Story, now: int)
    requires IncludesAny(LowerTitle(s), CoreVetoWords) || LowerSection(s) in FlaggedVetoSections
    ensures !IsHotNews(s, now)
  {
  }

  /** The same story with its editorial flag set to `flag` (metadata created if absent). */
  function WithFlag(s: Story, flag: Option<bool>): (t: Story)
    ensures t.title == s.title && t.section == s.section && t.publishedAt == s.publishedAt
    ensures Flagged(t) <==> flag == Some(true)
  {
    var m := if s.metadata.Some? then s.metadata.value else Metadata(None, None);
    s.(metadata := Some(m.(isHotNews := flag)))
  }

  /**
   * The flag's veto list is shorter than the unflagged one: a story without a
   * core veto, outside the flagged-veto sections, but in a science section or
   * with an extended-only veto word, is breaking when flagged and not when
   * unflagged.
   */
  lemma FlagOverridesExtendedVetoes(s: Story, now: int)
    requires !IncludesAny(LowerTitle(s), CoreVetoWords)
    requires LowerSection(s) !in FlaggedVetoSections
    requires LowerSection(s) in ["science & research", "science"]
          || IncludesAny(LowerTitle(s), ["movement", "reshapes", "audiences", "younger"])
    ensures IsHotNews(WithFlag(s, Some(true)), now)
    ensures !IsHotNews(WithFlag(s, None), now)
    ensures !IsHotNews(WithFlag(s, Some(false)), now)
  {
  }

  /** A flagged story is breaking exactly when neither flagged veto applies. */
  lemma FlaggedRule(s: Story, now: int)
    requires Flagged(s)
    ensures IsHotNews(s, now)
        <==> !IncludesAny(LowerTitle(s), CoreVetoWords) && LowerSection(s) !in FlaggedVetoSections
  {
  }

  /** Unflagged, an extended veto word wins over any urgency word. */
  lemma ExtendedVetoBeatsUrgency(s: Story, now: int)
    requires !Flagged(s)
    requires IncludesAny(LowerTitle(s), ExtendedVetoWords)
    ensures !IsHotNews(s, now)
  {
  }

  /** Unflagged, outside editorial sections and free of veto words, an urgency word makes a story breaking at any time. */
  lemma UrgencyMakesHot(s: Story, now: int)
    requires !Flagged(s)
    requires LowerSection(s) !in EditorialSections
    requires !IncludesAny(LowerTitle(s), ExtendedVetoWords)
    requires IncludesAny(LowerTitle(s), UrgencyWords)
    ensures IsHotNews(s, now)
  {
  }

  /**
   * The publication-time rule, stated on elapsed milliseconds: an unflagged,
   * keyword-free story in a news section is breaking exactly when it has a
   * publication time at most 6 hours ago, or at most 12 hours ago with
   * priority (default 3) of 5 or more.
   */
  lemma TimestampRule(s: Story, now: int)
    requires !Flagged(s)
    requires LowerSection(s) in NewsSections
    requires !IncludesAny(LowerTitle(s), ExtendedVetoWords)
    requires !IncludesAny(LowerTitle(s), UrgencyWords)
    ensures IsHotNews(s, now) <==>
      && s.publishedAt.Some?
      && var elapsed := now - s.publishedAt.value;
         || elapsed <= 6 * MsPerHour
         || (elapsed <= 12 * MsPerHour && Priority(s) >= 5)
  {
  }

  /** Comparing elapsed hours with a whole number of hours is comparing milliseconds. */
  lemma HoursWindow(elapsed: int, hours: int)
    ensures elapsed as real / MsPerHour as real <= hours as real <==> elapsed <= hours * MsPerHour
  {
  }

  /** An unflagged story without keywords and without a publication time is never breaking. */
  lemma NoTimestampNotHot(s: Story, now: int)
    requires !Flagged(s)
    requires !IncludesAny(LowerTitle(s), UrgencyWords)
    requires s.publishedAt.None?
    ensures !IsHotNews(s, now)
  {
  }

  /** Breaking status only expires: breaking at a later instant implies breaking at any earlier one. */
  lemma HotIsAntitoneInNow(s: Story, earlier: int, later: int)
    requires earlier <= later
    requires IsHotNews(s, later)
    ensures IsHotNews(s, earlier)
  {
  }

  /** Matching ignores ASCII case: a capitalised veto word in the title still vetoes. */
  lemma VetoIgnoresCase(s: Story, now: int)
    requires s.title == Some("WHY Markets Move")
    ensures !IsHotNews(s, now)
  {
    assert LowerTitle(s) == "why markets move";
    assert OccursAt(LowerTitle(s), "why", 0);
    assert "why" in CoreVetoWords && "why" in ExtendedVetoWords;
    assert Includes(LowerTitle(s), "why");
  }

  /** The lower-cased title "breaking: x" holds none of the words in `words`. */
  lemma BreakingTitleAvoids(words: seq<string>)
    requires words == CoreVetoWords || words == ["movement", "reshapes", "audiences", "younger"]
    ensures forall w :: w in words ==> !Includes("breaking: x", w)
  {
    var t := "breaking: x";
    forall w | w in words ensures !Includes(t, w) {
      var c := if w == "why" then 'w' else if w == "how" then 'h' else if w == "choosing" then 'c'
        else if w == "turn" then 't' else if w == "movement" then 'm' else if w == "reshapes" then 's'
        else if w == "audiences" then 'u' else 'y';
      assert c in w && c !in t;
      AbsentCharNotIncluded(t, w, c);
    }
  }

  /** The lower-cased title "breaking: x" holds no extended veto word. */
  lemma BreakingTitleHasNoVeto()
    ensures !IncludesAny("breaking: x", ExtendedVetoWords)
  {
    BreakingTitleAvoids(CoreVetoWords);
    BreakingTitleAvoids(["movement", "reshapes", "audiences", "younger"]);
  }

  /** A "Breaking: X" title in section News is breaking through the urgency rule, at any instant. */
  lemma BreakingTitleScenario(s: Story, now: int)
    requires s.title == Some("Breaking: X") && s.section == Some("News") && s.metadata.None?
    ensures IsHotNews(s, now)
  {
    assert LowerTitle(s) == "breaking: x";
    assert LowerSection(s) == "news";
    BreakingTitleHasNoVeto();
    assert OccursAt("breaking: x", "breaking", 0);
    assert "breaking" in UrgencyWords;
    assert Includes("breaking: x", "breaking");
  }

  /** A flagged "Why ..." story in section Philosophy is not breaking. */
  lemma FlaggedPhilosophyScenario(s: Story, now: int)
    requires s.title == Some("Why constants matter") && s.section == Some("Philosophy") && Flagged(s)
    ensures !IsHotNews(s, now)
  {
    assert LowerSection(s) == "philosophy";
  }

  /** A keyword-free Global story at priority 6 is breaking 8 hours after publication and not 13 hours after. */
  lemma GlobalPriorityScenario(s: Story, publishedAt: int)
    requires s.section == Some("Global") && s.publishedAt == Some(publishedAt)
    requires s.metadata == Some(Metadata(None, Some(6)))
    requires !IncludesAny(LowerTitle(s), ExtendedVetoWords) && !IncludesAny(LowerTitle(s), UrgencyWords)
    ensures IsHotNews(s, publishedAt + 8 * MsPerHour)
    ensures !IsHotNews(s, publishedAt + 13 * MsPerHour)
  {
    assert LowerSection(s) == "global";
    TimestampRule(s, publishedAt + 8 * MsPerHour);
    TimestampRule(s, publishedAt + 13 * MsPerHour);
  }
}

=== FILE: hot_news_card.dfy ===
/** The breaking-news card: permalink, excerpt of up to 100 characters, image. */
module HotNewsCard {
  import opened Stories
  import CardFields
  import StoryCard
  import opened Seqs

  const ExcerptLimit: nat := 100

  /** What the breaking-news card renders besides the title. */
  datatype HotCardView = HotCardView(url: string, excerpt: string, image: string)

  /** The breaking-news card for `s`. */
  function Render(s: Story): (v: HotCardView)
    ensures v.url == CardFields.PiecePrefix + s.id
    ensures v.image != ""
    ensures s.imageUrl.Some? && s.imageUrl.value != "" ==> v.image == s.imageUrl.value
    ensures s.imageUrl.None? || s.imageUrl.value == "" ==> v.image == CardFields.PlaceholderImage
    ensures CardFields.FirstBlockText(s).Some? && CardFields.FirstBlockText(s).value != "" ==>
      var text := CardFields.FirstBlockText(s).value;
      |v.excerpt| == Min(ExcerptLimit, |text|) && v.excerpt <= text
    ensures CardFields.FirstBlockText(s).None? || CardFields.FirstBlockText(s).value == "" ==>
      v.excerpt == OrElse(s.summary, "")
  {
    HotCardView(CardFields.StoryUrl(s.id), CardFields.Excerpt(s, ExcerptLimit), CardFields.ImageUrl(s))
  }

  /** Both cards link a story to the same permalink and show the same image. */
  lemma CardsAgreeOnLinkAndImage(s: Story, large: bool)
    ensures Render(s).url == StoryCard.Render(s, large).url
    ensures Render(s).image == StoryCard.Render(s, large).image
  {
  }

  /** The breaking card's excerpt is a prefix of the article card's excerpt. */
  lemma ExcerptIsPrefixOfArticleExcerpt(s: Story, large: bool)
    ensures Render(s).excerpt <= StoryCard.Render(s, large).excerpt
  {
  }
}

=== FILE: page.dfy ===
/**
 * The home page's composition: the breaking-news strip, the topic-filtered
 * article grid and its empty states, and the topic selection.
 */
module Page {
  import opened Wrappers
  import opened Seqs
  import opened Stories
  import opened Topics
  import opened HotNews

  /**
   * The page's state: the stored stories, whether the first poll is still
   * pending, and the selected topic key (`None` for no filter).
   */
  datatype PageState = PageState(stories: seq<Story>, loading: bool, selected: Option<string>)

  /** Before the first poll: no stories, loading, no filter. */
  const InitialState: PageState := PageState([], true, None)

  /** A selection is either absent or one of the eight topic keys. */
  predicate ValidSelection(selected: Option<string>) {
    selected.None? || selected.value in TopicKeys
  }

  /** Reachable states store only displayable stories and a valid selection. */
  predicate Valid(st: PageState) {
    && (forall s :: s in st.stories ==> Visible(s))
    && ValidSelection(st.selected)
  }

  /** The newsdesk list: the breaking stories, in feed order. */
  function HotStories(stories: seq<Story>, now: int): (hot: seq<Story>)
    ensures forall s :: s in hot <==> s in stories && IsHotNews(s, now)
    ensures forall s :: multiset(hot)[s] == if IsHotNews(s, now) then multiset(stories)[s] else 0
    ensures IsSubseq(hot, stories)
  {
    FilterCharacterisation(stories, s => IsHotNews(s, now));
    Filter(stories, s => IsHotNews(s, now))
  }

  /** The predicate `getFilteredStories` keeps under selection `selected`. */
  predicate ShownAsRegular(selected: Option<string>, now: int, s: Story) {
    && !IsHotNews(s, now)
    && (selected.None? || TopicOf(s) == selected)
  }

  /** `getFilteredStories`: the non-breaking stories, restricted to the selected topic if any. */
  function RegularStories(stories: seq<Story>, selected: Option<string>, now: int): (regular: seq<Story>)
    ensures forall s :: s in regular <==> s in stories && !IsHotNews(s, now) && (selected.None? || TopicOf(s) == selected)
    ensures forall s :: multiset(regular)[s] == if ShownAsRegular(selected, now, s) then multiset(stories)[s] else 0
    ensures IsSubseq(regular, stories)
  {
    FilterCharacterisation(stories, s => ShownAsRegular(selected, now, s));
    Filter(stories, s => ShownAsRegular(selected, now, s))
  }

  /**
   * Without a filter, the breaking and regular lists split the stories: they
   * are disjoint, together hold every story exactly as often as the feed
   * does, and each keeps the feed's order.
   */
  lemma HotRegularPartition(stories: seq<Story>, now: int)
    ensures forall s :: s in HotStories(stories, now) ==> s !in RegularStories(stories, None, now)
    ensures multiset(HotStories(stories, now)) + multiset(RegularStories(stories, None, now)) == multiset(stories)
    ensures IsSubseq(HotStories(stories, now), stories)
    ensures IsSubseq(RegularStories(stories, None, now), stories)
  {
    Partition(stories, s => IsHotNews(s, now), s => ShownAsRegular(None, now, s));
  }

  /** With topic `key` selected, the regular list is exactly the non-breaking stories of that topic, in feed order. */
  lemma FilteredRegular(stories: seq<Story>, key: string, now: int)
    ensures forall s :: (s in RegularStories(stories, Some(key), now)
        <==> s in stories && !IsHotNews(s, now) && TopicOf(s) == Some(key))
    ensures IsSubseq(RegularStories(stories, Some(key), now), stories)
    ensures forall s :: (multiset(RegularStories(stories, Some(key), now))[s]
      == if !IsHotNews(s, now) && TopicOf(s) == Some(key) then multiset(stories)[s] else 0)
  {
    FilterCharacterisation(stories, s => ShownAsRegular(Some(key), now, s));
  }

  /**
   * With topic `key` selected, the grid can list no more stories than the
   * topic's button counts: the count includes breaking stories, the list
   * leaves them out.
   */
  lemma FilteredWithinCount(stories: seq<Story>, key: string, now: int)
    requires forall s :: s in stories ==> Visible(s)
    ensures |RegularStories(stories, Some(key), now)| <= TopicCount(stories, key)
  {
    FilterCountMono(stories, s => ShownAsRegular(Some(key), now, s), s => CountsToward(key, s));
  }

  /** A displayable breaking story counts toward its topic but is never listed in the grid. */
  lemma HotCountedButNotListed(stories: seq<Story>, selected: Option<string>, now: int, s: Story)
    requires s in stories && Visible(s) && IsHotNews(s, now) && TopicOf(s).Some?
    ensures s !in RegularStories(stories, selected, now)
    ensures s in HotStories(stories, now)
    ensures TopicCount(stories, TopicOf(s).value) >= 1
  {
  }

  /** Clicking topic button `key`: deselect it when it is selected, otherwise select it. */
  function ClickTopic(selected: Option<string>, key: string): (r: Option<string>)
    ensures r.None? <==> selected == Some(key)
    ensures r.Some? ==> r.value == key
  {
    if selected == Some(key) then None else Some(key)
  }

  /** The "Clear filter" and "View all stories" buttons. */
  function ClearFilter(): (r: Option<string>)
    ensures r.None?
  {
    None
  }

  /** Two clicks on the same button undo each other from no selection, and from any selection other than that button. */
  lemma ClickTwice(selected: Option<string>, key: string)
    ensures ClickTopic(ClickTopic(selected, key), key) == (if selected == Some(key) then selected else None)
    ensures ClickTopic(ClickTopic(None, key), key) == None
  {
  }

  /** Clicks on topic buttons and clearing keep a valid selection valid. */
  lemma SelectionStaysValid(selected: Option<string>, key: string)
    requires ValidSelection(selected) && key in TopicKeys
    ensures ValidSelection(ClickTopic(selected, key))
    ensures ValidSelection(ClearFilter())
  {
  }

  /** The title of the catalog topic with key `key`, if there is one. */
  function TopicTitle(key: string): (r: Option<string>)
    ensures r.Some? <==> key in TopicKeys
    ensures r.Some? ==> r.value == key
  {
    CatalogMatchesKeys();
    FindTitle(TopicCatalog, key)
  }

  /** The title of the first catalog entry with key `key`. */
  function FindTitle(catalog: seq<Topic>, key: string): (r: Option<string>)
    ensures r.Some? <==> exists i :: 0 <= i < |catalog| && catalog[i].key == key
    ensures r.Some? ==> exists i :: 0 <= i < |catalog| && catalog[i].key == key && catalog[i].title == r.value
  {
    if |catalog| == 0 then None
    else if catalog[0].key == key then Some(catalog[0].title)
    else
      var r := FindTitle(catalog[1..], key);
      assert forall i :: 1 <= i < |catalog| ==> catalog[i] == catalog[1..][i - 1];
      r
  }

  /** A card in the article grid; `large` is the enlarged layout. */
  datatype Card = Card(story: Story, large: bool)

  /** What the "Latest Stories" area shows. */
  datatype Featured =
    | Spinner
    | Awakening(inProgress: nat, breaking: nat)
    | NoStoriesIn(topicTitle: Option<string>)
    | Grid(cards: seq<Card>)

  /** At most 6 cards without a filter, at most 20 with one. */
  function DisplayCap(selected: Option<string>): (cap: nat)
    ensures cap == 6 <==> selected.None?
    ensures cap == 20 <==> selected.Some?
  {
    if selected.Some? then 20 else 6
  }

  /** The first `n` regular stories as cards; only the first is enlarged, and only without a filter. */
  function Cards(regular: seq<Story>, selected: Option<string>, n: nat): (cards: seq<Card>)
    requires n <= |regular|
    ensures |cards| == n
    ensures forall i :: 0 <= i < n ==> cards[i].story == regular[i]
    ensures forall i :: 0 <= i < n ==> (cards[i].large <==> i == 0 && selected.None?)
  {
    seq(n, i requires 0 <= i < n => Card(regular[i], i == 0 && selected.None?))
  }

  /**
   * The "Latest Stories" area: a spinner while loading; with no regular
   * story, the awakening placeholder (no filter) or the no-stories
   * placeholder naming the topic (filter); otherwise a grid of the first
   * regular stories up to the cap.
   */
  function ComposeFeatured(st: PageState, now: int): (f: Featured)
    ensures f.Spinner? <==> st.loading
    ensures f.Awakening? <==> !st.loading && st.selected.None? && RegularStories(st.stories, None, now) == []
    ensures f.Awakening? ==> f == Awakening(|st.stories|, |HotStories(st.stories, now)|)
    ensures f.NoStoriesIn? <==> !st.loading && st.selected.Some? && RegularStories(st.stories, st.selected, now) == []
    ensures f.NoStoriesIn? ==> f.topicTitle == TopicTitle(st.selected.value)
    ensures f.Grid? ==>
      var regular := RegularStories(st.stories, st.selected, now);
      && |f.cards| == Min(|regular|, DisplayCap(st.selected)) > 0
      && (forall i :: 0 <= i < |f.cards| ==> f.cards[i].story == regular[i])
      && (forall i :: 0 <= i < |f.cards| ==> (f.cards[i].large <==> i == 0 && st.selected.None?))
  {
    var regular := RegularStories(st.stories, st.selected, now);
    if st.loading then Spinner
    else if |regular| == 0 && st.selected.None? then
      Awakening(|st.stories|, |HotStories(st.stories, now)|)
    else if |regular| == 0 then NoStoriesIn(TopicTitle(st.selected.value))
    else Grid(Cards(regular, st.selected, Min(|regular|, DisplayCap(st.selected))))
  }

  /** The newsdesk strip: the breaking stories, shown only once loaded and only when there is at least one. */
  function Newsdesk(st: PageState, now: int): (r: Option<seq<Story>>)
    ensures r.Some? <==> !st.loading && exists s :: s in st.stories && IsHotNews(s, now)
    ensures r.Some? ==> r.value == HotStories(st.stories, now) && |r.value| > 0
  {
    var hot := HotStories(st.stories, now);
    if !st.loading && |hot| > 0 then
      assert hot[0] in hot;
      Some(hot)
    else
      None
  }

  /** Page-level topic click. */
  function OnTopicClick(st: PageState, key: string): (st': PageState)
    ensures st'.stories == st.stories && st'.loading == st.loading
    ensures st'.selected.None? <==> st.selected == Some(key)
    ensures st'.selected.Some? ==> st'.selected.value == key
    ensures Valid(st) && key in TopicKeys ==> Valid(st')
  {
    st.(selected := ClickTopic(st.selected, key))
  }

  /** Page-level "Clear filter". */
  function OnClearFilter(st: PageState): (st': PageState)
    ensures st'.stories == st.stories && st'.loading == st.loading && st'.selected.None?
    ensures Valid(st) ==> Valid(st')
  {
    st.(selected := ClearFilter())
  }

  /**
   * Selecting a topic and clicking it again restores the page shown with no
   * filter: the unfiltered grid capped at six, or the awakening placeholder.
   */
  lemma SelectThenDeselectRestores(st: PageState, key: string, now: int)
    requires st.selected.None?
    ensures OnTopicClick(OnTopicClick(st, key), key) == st
    ensures ComposeFeatured(OnTopicClick(OnTopicClick(st, key), key), now) == ComposeFeatured(st, now)
  {
  }
}

=== FILE: poll.dfy ===
/**
 * The state update after one story poll resolves. The request itself, the
 * 30-second timer and the logging are not modelled; a poll is reduced to its
 * outcome.
 */
module Poll {
  import opened Wrappers
  import opened Seqs
  import opened Stories
  import opened Topics
  import opened HotNews
  import opened Page

  /** A parsed response body: an array of stories, or any other JSON value. */
  datatype Json = JsonArray(items: seq<Story>) | JsonOther

  /**
   * How a poll ended: the request was rejected, or a response arrived with
   * its `ok` status and a body that parsed as JSON (`None` when it did not).
   */
  datatype FetchOutcome = NetworkError | Response(ok: bool, body: Option<Json>)

  /** The outcomes that throw inside the poll: rejection, non-OK status, unparsable body. */
  predicate Throws(outcome: FetchOutcome) {
    outcome.NetworkError? || !outcome.ok || outcome.body.None?
  }

  /**
   * The state after a poll: an array keeps its published and decaying
   * stories, any other body clears the list, a thrown error keeps the list;
   * loading ends in every case and the selection is untouched.
   */
  function OnStoriesFetched(st: PageState, outcome: FetchOutcome): (st': PageState)
    ensures !st'.loading && st'.selected == st.selected
    ensures Throws(outcome) ==> st'.stories == st.stories
    ensures !Throws(outcome) && outcome.body.value.JsonOther? ==> st'.stories == []
    ensures !Throws(outcome) && outcome.body.value.JsonArray? ==>
      && (forall s :: s in st'.stories <==> s in outcome.body.value.items && Visible(s))
      && IsSubseq(st'.stories, outcome.body.value.items)
      && (forall x :: multiset(st'.stories)[x] == if Visible(x) then multiset(outcome.body.value.items)[x] else 0)
    ensures Valid(st) ==> Valid(st')
  {
    match outcome
    case NetworkError => st.(loading := false)
    case Response(ok, body) =>
      if !ok then st.(loading := false)
      else
        match body
        case None => st.(loading := false)
        case Some(JsonArray(items)) =>
          FilterCharacterisation(items, Visible);
          st.(stories := Filter(items, Visible), loading := false)
        case Some(JsonOther) => st.(stories := [], loading := false)
  }

  /** What can happen to the page: a poll resolves, a topic button is clicked, the filter is cleared. */
  datatype Event = Polled(outcome: FetchOutcome) | Clicked(key: string) | Cleared

  /** Only the eight topic buttons produce clicks. */
  predicate WellFormedEvents(events: seq<Event>) {
    forall i :: 0 <= i < |events| && events[i].Clicked? ==> events[i].key in TopicKeys
  }

  function Step(st: PageState, e: Event): PageState {
    match e
    case Polled(outcome) => OnStoriesFetched(st, outcome)
    case Clicked(key) => OnTopicClick(st, key)
    case Cleared => OnClearFilter(st)
  }

  /** The state after `events`, applied in order from `st`. */
  function Run(st: PageState, events: seq<Event>): PageState
    decreases |events|
  {
    if |events| == 0 then st else Run(Step(st, events[0]), events[1..])
  }

  /**
   * Every state reachable from the initial one stores only published and
   * decaying stories and selects nothing or one of the eight topics.
   */
  lemma {:induction false} ReachableStatesValid(st: PageState, events: seq<Event>)
    requires Valid(st) && WellFormedEvents(events)
    ensures Valid(Run(st, events))
    decreases |events|
  {
    if |events| > 0 {
      assert WellFormedEvents(events[1..]) by {
        forall i | 0 <= i < |events| - 1 && events[1..][i].Clicked?
          ensures events[1..][i].key in TopicKeys
        {
          assert events[1..][i] == events[i + 1];
        }
      }
      assert events[0].Clicked? ==> events[0].key in TopicKeys;
      ReachableStatesValid(Step(st, events[0]), events[1..]);
    }
  }

  /** The page starts valid, so every state the page reaches is valid. */
  lemma InitialReachesOnlyValid(events: seq<Event>)
    requires WellFormedEvents(events)
    ensures Valid(Run(InitialState, events))
  {
    ReachableStatesValid(InitialState, events);
  }

  /** Drafts and archived stories never reach the breaking strip, the grid or the counts. */
  lemma HiddenStoriesNeverShown(st: PageState, now: int, s: Story)
    requires Valid(st)
    requires !Visible(s)
    ensures s !in HotStories(st.stories, now)
    ensures s !in RegularStories(st.stories, st.selected, now)
  {
  }

  /**
   * An empty feed after the first poll: nothing breaking, nothing regular,
   * every count zero, and the awakening placeholder with zero stories.
   */
  lemma EmptyFeedScenario(now: int)
    ensures var st := OnStoriesFetched(InitialState, Response(true, Some(JsonArray([]))));
      && st.stories == []
      && HotStories(st.stories, now) == []
      && RegularStories(st.stories, None, now) == []
      && (forall k :: TopicCount(st.stories, k) == 0)
      && ComposeFeatured(st, now) == Awakening(0, 0)
      && Newsdesk(st, now).None?
  {
  }
}

=== FILE: seqs.dfy ===
/**
 * Order-preserving filtering of sequences (JavaScript's `Array.prototype.filter`)
 * and the counting facts the page relies on.
 */
module Seqs {

  function Min(a: int, b: int): int {
    if a <= b then a else b
  }

  /** `a` can be obtained from `b` by deleting elements: `a` keeps `b`'s order. */
  predicate IsSubseq<T(==)>(a: seq<T>, b: seq<T>)
    decreases |a| + |b|
  {
    || |a| == 0
    || (&& |b| > 0
        && ((a[0] == b[0] && IsSubseq(a[1..], b[1..])) || IsSubseq(a, b[1..])))
  }

  /** The elements of `s` satisfying `p`, in order. */
  function Filter<T(==,!new)>(s: seq<T>, p: T -> bool): (r: seq<T>)
    ensures |r| <= |s|
    ensures forall x :: x in r <==> x in s && p(x)
  {
    if |s| == 0 then []
    else if p(s[0]) then [s[0]] + Filter(s[1..], p)
    else Filter(s[1..], p)
  }

  /**
   * The filter is characterised completely: an order-preserving selection of
   * `s` holding every `p`-element with its full multiplicity and nothing else.
   */
  lemma {:induction false} FilterCharacterisation<T(!new)>(s: seq<T>, p: T -> bool)
    ensures forall x :: multiset(Filter(s, p))[x] == if p(x) then multiset(s)[x] else 0
    ensures IsSubseq(Filter(s, p), s)
  {
    if |s| > 0 {
      assert s == [s[0]] + s[1..];
      var rest := Filter(s[1..], p);
      FilterCharacterisation(s[1..], p);
      if p(s[0]) {
        assert ([s[0]] + rest)[1..] == rest;
      }
    }
  }

  /** Filtering distributes over concatenation. */
  lemma {:induction false} FilterConcat<T(!new)>(a: seq<T>, b: seq<T>, p: T -> bool)
    ensures Filter(a + b, p) == Filter(a, p) + Filter(b, p)
  {
    if |a| == 0 {
      assert a + b == b;
    } else {
      assert (a + b)[0] == a[0];
      assert (a + b)[1..] == a[1..] + b;
      FilterConcat(a[1..], b, p);
    }
  }

  /** Filtering a one-element extension adds the new element exactly when it passes. */
  lemma FilterSnoc<T(!new)>(s: seq<T>, x: T, p: T -> bool)
    ensures |Filter(s + [x], p)| == |Filter(s, p)| + (if p(x) then 1 else 0)
  {
    FilterConcat(s, [x], p);
    assert [x][1..] == [];
  }

  /** Nothing passes a predicate no element satisfies. */
  lemma {:induction false} FilterNone<T(!new)>(s: seq<T>, p: T -> bool)
    requires forall x :: x in s ==> !p(x)
    ensures Filter(s, p) == []
  {
    if |s| > 0 {
      FilterNone(s[1..], p);
    }
  }

  /** A weaker predicate keeps at least as many elements. */
  lemma {:induction false} FilterCountMono<T(!new)>(s: seq<T>, p: T -> bool, q: T -> bool)
    requires forall x :: x in s && p(x) ==> q(x)
    ensures |Filter(s, p)| <= |Filter(s, q)|
  {
    if |s| > 0 {
      FilterCountMono(s[1..], p, q);
    }
  }

  /**
   * Under `q ==> p`, the `q`-filter is as long as the `p`-filter exactly when
   * every `p`-element of `s` also satisfies `q`.
   */
  lemma {:induction false} FilterCountEqual<T(!new)>(s: seq<T>, p: T -> bool, q: T -> bool)
    requires forall x :: q(x) ==> p(x)
    ensures |Filter(s, q)| == |Filter(s, p)| <==> forall x :: x in s && p(x) ==> q(x)
  {
    if |s| > 0 {
      FilterCountEqual(s[1..], p, q);
      FilterCountMono(s[1..], q, p);
      assert forall x :: x in s <==> x == s[0] || x in s[1..];
    }
  }

  /** Counts of two disjoint predicates add up to the count of their union. */
  lemma {:induction false} FilterCountDisjointUnion<T(!new)>(s: seq<T>, p: T -> bool, q: T -> bool, u: T -> bool)
    requires forall x :: !(p(x) && q(x))
    requires forall x :: u(x) == (p(x) || q(x))
    ensures |Filter(s, p)| + |Filter(s, q)| == |Filter(s, u)|
  {
    if |s| > 0 {
      FilterCountDisjointUnion(s[1..], p, q, u);
    }
  }

  /**
   * Splitting by `p` and by its negation: the two parts are disjoint, together
   * hold exactly the elements of `s`, and each keeps `s`'s order.
   */
  lemma Partition<T(!new)>(s: seq<T>, p: T -> bool, q: T -> bool)
    requires forall x :: q(x) == !p(x)
    ensures forall x :: x in Filter(s, p) ==> x !in Filter(s, q)
    ensures multiset(Filter(s, p)) + multiset(Filter(s, q)) == multiset(s)
    ensures IsSubseq(Filter(s, p), s) && IsSubseq(Filter(s, q), s)
  {
    FilterCharacterisation(s, p);
    FilterCharacterisation(s, q);
    var a, b := Filter(s, p), Filter(s, q);
    assert forall x :: (multiset(a) + multiset(b))[x] == multiset(s)[x];
  }
}

=== FILE: stories.dfy ===
/**
 * The story record as the feed delivers it. Every field the page reads is
 * optional in the JSON; absent fields are `None` here.
 */
module Stories {
  import opened Wrappers

  /** One fragment of a story body; only its text is read. */
  datatype Block = Block(text: Option<string>)

  datatype Author = Author(name: Option<string>)

  /** Editorial metadata: the breaking-news flag and an importance score. */
  datatype Metadata = Metadata(isHotNews: Option<bool>, priority: Option<int>)

  /**
   * A story. `status` is the raw status string (`draft`, `published`,
   * `decaying`, `archived`); `publishedAt` is the publication instant in
   * milliseconds since the epoch, `None` when absent or unparsable.
   */
  datatype Story = Story(
    id: string,
    title: Option<string>,
    summary: Option<string>,
    blocks: Option<seq<Block>>,
    section: Option<string>,
    status: string,
    publishedAt: Option<int>,
    freshness: Option<real>,
    isFresh: Option<bool>,
    metadata: Option<Metadata>,
    authors: Option<seq<Author>>,
    imageUrl: Option<string>)

  /**
   * JavaScript's logical-or fallback on an optional string: an absent or empty
   * string is falsy and yields the fallback.
   */
  function OrElse(x: Option<string>, fallback: string): (r: string)
    ensures x.Some? && x.value != "" ==> r == x.value
    ensures x.None? || x.value == "" ==> r == fallback
  {
    if x.Some? && x.value != "" then x.value else fallback
  }

  /** Only published and decaying stories are ever displayed or counted. */
  predicate Visible(s: Story)
    ensures Visible(s) <==> s.status in {"published", "decaying"}
  {
    s.status == "published" || s.status == "decaying"
  }
}

=== FILE: story_card.dfy ===
/**
 * The article card: permalink, excerpt of up to 150 characters, author,
 * image, section label, and the freshness-driven opacity, colour and badge.
 */
module StoryCard {
  import opened Wrappers
  import opened Stories
  import CardFields
  import opened Seqs

  const ExcerptLimit: nat := 150
  const DefaultFreshness: real := 100.0
  const FreshThreshold: real := 20.0
  const MinOpacity: real := 0.3
  const DefaultAuthor: string := "The Editors"
  const DefaultSectionLabel: string := "Article"

  /** The freshness score; only an absent score defaults to 100, a score of 0 is kept. */
  function Freshness(s: Story): (f: real)
    ensures s.freshness.Some? ==> f == s.freshness.value
    ensures s.freshness.None? ==> f == DefaultFreshness
  {
    match s.freshness
    case Some(v) => v
    case None => DefaultFreshness
  }

  /** Fresh: not explicitly marked stale, and a score of at least 20. */
  predicate IsFresh(s: Story)
    ensures IsFresh(s) ==> Freshness(s) >= FreshThreshold
    ensures s.isFresh == Some(false) ==> !IsFresh(s)
    ensures s.isFresh != Some(false) && Freshness(s) >= FreshThreshold ==> IsFresh(s)
  {
    s.isFresh != Some(false) && Freshness(s) >= FreshThreshold
  }

  /** Card opacity: fully opaque from a score of 20, otherwise the score over 20, but never below 0.3. */
  function Opacity(freshness: real): (o: real)
    ensures MinOpacity <= o <= 1.0
    ensures o == 1.0 <==> freshness >= FreshThreshold
    ensures freshness < FreshThreshold ==> o >= freshness / FreshThreshold
    ensures freshness < FreshThreshold ==> o == MinOpacity || o == freshness / FreshThreshold
  {
    if freshness < FreshThreshold then
      var scaled := freshness / FreshThreshold;
      if MinOpacity >= scaled then MinOpacity else scaled
    else 1.0
  }

  /** Fading is gradual: a fresher story is never more transparent. */
  lemma OpacityMonotone(f1: real, f2: real)
    requires f1 <= f2
    ensures Opacity(f1) <= Opacity(f2)
  {
  }

  datatype FreshnessColor = Green | Yellow | Orange | Red

  /** The colour's CSS value, as painted on the badge or the indicator. */
  function Hex(c: FreshnessColor): (h: string)
    ensures |h| == 7 && h[0] == '#'
  {
    match c
    case Green => "#4CAF50"
    case Yellow => "#FFC107"
    case Orange => "#FF9800"
    case Red => "#F44336"
  }

  /** Distinct tiers are painted in distinct colours, so the CSS value identifies the tier. */
  lemma HexInjective(c: FreshnessColor, d: FreshnessColor)
    ensures Hex(c) == Hex(d) <==> c == d
  {
  }

  /** `getFreshnessColor`: four tiers at 80, 50 and 20. */
  function ColorOf(freshness: real): (c: FreshnessColor)
    ensures c == Green <==> freshness >= 80.0
    ensures c == Yellow <==> 50.0 <= freshness < 80.0
    ensures c == Orange <==> 20.0 <= freshness < 50.0
    ensures c == Red <==> freshness < 20.0
  {
    if freshness >= 80.0 then Green
    else if freshness >= 50.0 then Yellow
    else if freshness >= 20.0 then Orange
    else Red
  }

  /** The first author's name, falling back to the house byline; never empty. */
  function AuthorName(s: Story): (r: string)
    ensures r != ""
    ensures (&& s.authors.Some? && |s.authors.value| > 0 && s.authors.value[0].name.Some?
             && s.authors.value[0].name.value != "")
         ==> r == s.authors.value[0].name.value
    ensures !(&& s.authors.Some? && |s.authors.value| > 0 && s.authors.value[0].name.Some?
              && s.authors.value[0].name.value != "")
         ==> r == DefaultAuthor
  {
    var first := if s.authors.Some? && |s.authors.value| > 0 then s.authors.value[0].name else None;
    OrElse(first, DefaultAuthor)
  }

  /** The section label, falling back to a generic one; never empty. */
  function SectionLabel(s: Story): (r: string)
    ensures r != ""
    ensures s.section.Some? && s.section.value != "" ==> r == s.section.value
    ensures s.section.None? || s.section.value == "" ==> r == DefaultSectionLabel
  {
    OrElse(s.section, DefaultSectionLabel)
  }

  /**
   * What the card renders. `badge` is the numeric freshness badge on the
   * image; `indicator` is the inline freshness mark next to the section.
   */
  datatype CardView = CardView(
    url: string,
    excerpt: string,
    author: string,
    image: string,
    sectionLabel: string,
    opacity: real,
    color: FreshnessColor,
    badge: bool,
    indicator: bool,
    large: bool)

  /** The card for `s`. */
  function Render(s: Story, large: bool): (v: CardView)
    ensures v.badge != v.indicator
    ensures v.indicator <==> IsFresh(s)
    ensures v.opacity == 1.0 <==> Freshness(s) >= FreshThreshold
    ensures v.author != "" && v.image != "" && v.sectionLabel != ""
    ensures (&& s.authors.Some? && |s.authors.value| > 0 && s.authors.value[0].name.Some?
             && s.authors.value[0].name.value != "")
         ==> v.author == s.authors.value[0].name.value
    ensures !(&& s.authors.Some? && |s.authors.value| > 0 && s.authors.value[0].name.Some?
              && s.authors.value[0].name.value != "")
         ==> v.author == DefaultAuthor
    ensures s.imageUrl.Some? && s.imageUrl.value != "" ==> v.image == s.imageUrl.value
    ensures s.imageUrl.None? || s.imageUrl.value == "" ==> v.image == CardFields.PlaceholderImage
    ensures s.section.Some? && s.section.value != "" ==> v.sectionLabel == s.section.value
    ensures s.section.None? || s.section.value == "" ==> v.sectionLabel == DefaultSectionLabel
    ensures Freshness(s) < FreshThreshold ==>
      && v.opacity >= MinOpacity && v.opacity >= Freshness(s) / FreshThreshold
      && (v.opacity == MinOpacity || v.opacity == Freshness(s) / FreshThreshold)
    ensures v.large == large
    ensures v.url == CardFields.PiecePrefix + s.id
    ensures v.color == Green <==> Freshness(s) >= 80.0
    ensures v.color == Yellow <==> 50.0 <= Freshness(s) < 80.0
    ensures v.color == Orange <==> 20.0 <= Freshness(s) < 50.0
    ensures v.color == Red <==> Freshness(s) < 20.0
    ensures CardFields.FirstBlockText(s).Some? && CardFields.FirstBlockText(s).value != "" ==>
      var text := CardFields.FirstBlockText(s).value;
      |v.excerpt| == Min(ExcerptLimit, |text|) && v.excerpt <= text
    ensures CardFields.FirstBlockText(s).None? || CardFields.FirstBlockText(s).value == "" ==>
      v.excerpt == OrElse(s.summary, "")
  {
    var f := Freshness(s);
    var freshNow := IsFresh(s);
    CardView(
      CardFields.StoryUrl(s.id),
      CardFields.Excerpt(s, ExcerptLimit),
      AuthorName(s),
      CardFields.ImageUrl(s),
      SectionLabel(s),
      Opacity(f),
      ColorOf(f),
      !freshNow,
      freshNow,
      large)
  }

  /** A score of zero is kept, not defaulted: red, and at the minimum opacity. */
  lemma ZeroFreshnessKept(s: Story)
    requires s.freshness == Some(0.0)
    ensures Freshness(s) == 0.0
    ensures Render(s, false).color == Red
    ensures Render(s, false).opacity == MinOpacity
    ensures Render(s, false).badge
  {
  }

  /** An absent score reads as 100: green, opaque, and fresh unless overridden. */
  lemma AbsentFreshnessDefaults(s: Story)
    requires s.freshness.None?
    ensures Render(s, false).color == Green
    ensures Render(s, false).opacity == 1.0
    ensures Render(s, false).indicator <==> s.isFresh != Some(false)
  {
  }

  /** The explicit override shows the badge while the card stays opaque: opacity reads the score only. */
  lemma OverrideShowsBadgeAtFullOpacity(s: Story)
    requires s.isFresh == Some(false) && Freshness(s) >= FreshThreshold
    ensures Render(s, false).badge && !Render(s, false).indicator
    ensures Render(s, false).opacity == 1.0
  {
  }

  /** At exactly 20 a story is fresh; just below it is not. */
  lemma FreshnessBoundary(s: Story, t: Story)
    requires s.isFresh.None? && s.freshness == Some(20.0)
    requires t.isFresh.None? && t.freshness == Some(19.999)
    ensures IsFresh(s) && Render(s, false).opacity == 1.0 && !Render(s, false).badge
    ensures !IsFresh(t) && Render(t, false).badge && Render(t, false).opacity == 19.999 / 20.0
  {
  }
}

=== FILE: text.dfy ===
/**
 * The string operations the classifier uses: `toLowerCase` (on ASCII letters
 * only) and `includes` (substring search, not word search).
 */
module Text {

  predicate IsAsciiUpper(c: char) {
    'A' <= c <= 'Z'
  }

  function LowerChar(c: char): char {
    if IsAsciiUpper(c) then (c as int + 32) as char else c
  }

  /** Lower-casing, restricted to the ASCII letters A-Z. */
  function ToLower(s: string): (r: string)
    ensures |r| == |s|
    ensures forall i :: 0 <= i < |s| ==> r[i] == LowerChar(s[i])
  {
    seq(|s|, i requires 0 <= i < |s| => LowerChar(s[i]))
  }

  /** `p` occurs in `s` starting at index `i`. */
  ghost predicate OccursAt(s: string, p: string, i: int) {
    0 <= i && i + |p| <= |s| && s[i..i + |p|] == p
  }

  /** Substring search: `p` occurs somewhere in `s` as a contiguous run. */
  function Includes(s: string, p: string): (b: bool)
    ensures b <==> exists i :: OccursAt(s, p, i)
    decreases |s|
  {
    if |p| > |s| then
      assert forall i :: !OccursAt(s, p, i);
      false
    else if s[..|p|] == p then
      assert OccursAt(s, p, 0);
      true
    else
      var b := Includes(s[1..], p);
      assert forall i :: OccursAt(s[1..], p, i) <==> OccursAt(s, p, i + 1) by {
        forall i ensures OccursAt(s[1..], p, i) <==> OccursAt(s, p, i + 1) {
          if 0 <= i && i + |p| <= |s| - 1 {
            assert s[1..][i..i + |p|] == s[i + 1..i + 1 + |p|];
          }
        }
      }
      assert !OccursAt(s, p, 0);
      assert (exists i :: OccursAt(s, p, i)) ==> exists i :: OccursAt(s[1..], p, i) by {
        if exists i :: OccursAt(s, p, i) {
          var i :| OccursAt(s, p, i);
          assert OccursAt(s[1..], p, i - 1);
        }
      }
      b
  }

  /** A pattern holding a character the text lacks does not occur in it. */
  lemma AbsentCharNotIncluded(s: string, p: string, c: char)
    requires c in p && c !in s
    ensures !Includes(s, p)
  {
  }

  /** Some word of `words` occurs in `s` (a disjunction of substring tests). */
  predicate IncludesAny(s: string, words: seq<string>) {
    exists w :: w in words && Includes(s, w)
  }

  /** Substring search is not word search: `"how"` is found in `"show"`, `"turn"` in `"return"`. */
  lemma SubstringNotWord()
    ensures Includes("show", "how")
    ensures Includes("the return of", "turn")
  {
  }
}

=== FILE: topics.dfy ===
/**
 * The eight reader-facing topics, the table that maps a story's section onto
 * them, and the per-topic story counts shown on the topic buttons.
 */
module Topics {
  import opened Wrappers
  import opened Stories
  import opened Seqs

  datatype Topic = Topic(icon: string, title: string, key: string)

  /** The topic catalog, in display order. */
  const TopicCatalog: seq<Topic> := [
    Topic("\U{222B}", "Mathematics", "Mathematics"),
    Topic("\U{269B}", "Physics", "Physics"),
    Topic("\U{03C6}", "Philosophy", "Philosophy"),
    Topic("\U{2318}", "Technology", "Technology"),
    Topic("\U{1F3A8}", "Art", "Art"),
    Topic("\U{1F30D}", "Society", "Society"),
    Topic("\U{1F4DA}", "Culture", "Culture"),
    Topic("\U{1F4AD}", "Ideas", "Ideas")
  ]

  /** The keys the count table is initialised with. */
  const TopicKeys: seq<string> :=
    ["Mathematics", "Physics", "Philosophy", "Technology", "Art", "Society", "Culture", "Ideas"]

  /** Section label to topic key; exact, case-sensitive match. */
  const SectionToTopic: map<string, string> := map[
    "Mathematics" := "Mathematics",
    "Math" := "Mathematics",
    "Physics" := "Physics",
    "Science" := "Physics",
    "Science & Research" := "Physics",
    "Philosophy" := "Philosophy",
    "Technology" := "Technology",
    "Tech" := "Technology",
    "Technology & Innovation" := "Technology",
    "Art" := "Art",
    "Society" := "Society",
    "Health" := "Society",
    "Politics" := "Society",
    "Global" := "Society",
    "News" := "Society",
    "Social Justice" := "Society",
    "Culture" := "Culture",
    "Culture & Society" := "Culture",
    "Ideas" := "Ideas",
    "Arts & Ideas" := "Ideas"
  ]

  /** The topic a section label maps to, if any. */
  function TopicOfSection(section: string): (r: Option<string>)
    ensures r.Some? <==> section in SectionToTopic
    ensures r.Some? ==> r.value in TopicKeys
  {
    if section in SectionToTopic then Some(SectionToTopic[section]) else None
  }

  /** The topic of a story: its section (absent or empty read as `''`) looked up in the table. */
  function TopicOf(s: Story): (r: Option<string>)
    ensures r.Some? ==> r.value in TopicKeys
    ensures s.section.None? || s.section.value == "" ==> r.None?
    ensures s.section.Some? && s.section.value != "" ==> r == TopicOfSection(s.section.value)
  {
    TopicOfSection(OrElse(s.section, ""))
  }

  /** The catalog's keys are exactly the count keys, pairwise distinct, each titled by itself. */
  lemma CatalogMatchesKeys()
    ensures |TopicCatalog| == |TopicKeys| == 8
    ensures forall i :: 0 <= i < 8 ==> TopicCatalog[i].key == TopicKeys[i] == TopicCatalog[i].title
    ensures forall i, j :: 0 <= i < j < 8 ==> TopicKeys[i] != TopicKeys[j]
  {
  }

  /** Every topic the table can produce is one of the eight keys. */
  lemma TableTargetsAreTopicKeys(section: string)
    ensures forall k :: k in SectionToTopic ==> SectionToTopic[k] in TopicKeys
    ensures TopicOfSection(section).Some? ==> TopicOfSection(section).value in TopicKeys
  {
  }

  /** The lookup is exact and case-sensitive. */
  lemma LookupIsCaseSensitive()
    ensures TopicOfSection("News") == Some("Society")
    ensures TopicOfSection("news") == None
    ensures TopicOfSection("Science") == Some("Physics")
    ensures TopicOfSection("science") == None
    ensures TopicOfSection("") == None
  {
    assert "News" in SectionToTopic && SectionToTopic["News"] == "Society";
    assert "Science" in SectionToTopic && SectionToTopic["Science"] == "Physics";
    assert "news" !in SectionToTopic.Keys;
    assert "science" !in SectionToTopic.Keys;
    assert "" !in SectionToTopic.Keys;
  }

  /** The stories a topic button counts: displayable, and mapped to `key`. */
  predicate CountsToward(key: string, s: Story) {
    Visible(s) && TopicOf(s) == Some(key)
  }

  /** The count of `key` over `stories`. */
  function TopicCount(stories: seq<Story>, key: string): nat {
    |Filter(stories, s => CountsToward(key, s))|
  }

  /** Appending one story raises the count of `key` by one exactly when the story counts toward it. */
  lemma TopicCountSnoc(stories: seq<Story>, x: Story, key: string)
    ensures TopicCount(stories + [x], key) == TopicCount(stories, key) + (if CountsToward(key, x) then 1 else 0)
  {
    FilterSnoc(stories, x, s => CountsToward(key, s));
  }

  /** The zero-initialised count table. */
  function ZeroCounts(): (counts: map<string, nat>)
    ensures forall k :: k in counts <==> k in TopicKeys
    ensures forall k :: k in counts ==> counts[k] == 0
  {
    map k | k in TopicKeys :: 0
  }

  /** The count table agrees with `stories`: all eight keys, each holding its count. */
  ghost predicate CountsAgree(counts: map<string, nat>, stories: seq<Story>) {
    && (forall k :: k in counts <==> k in TopicKeys)
    && (forall k :: k in counts ==> counts[k] == TopicCount(stories, k))
  }

  /** One step of the `forEach`: bump the story's topic when it is displayable and mapped. */
  function Tally(counts: map<string, nat>, story: Story): map<string, nat> {
    var topic := if Visible(story) then TopicOf(story) else None;
    if topic.Some? && topic.value in counts then counts[topic.value := counts[topic.value] + 1]
    else counts
  }

  /** Tallying one more story keeps the table in agreement with the longer list. */
  lemma TallyStep(counts: map<string, nat>, stories: seq<Story>, story: Story)
    requires CountsAgree(counts, stories)
    ensures CountsAgree(Tally(counts, story), stories + [story])
  {
    var topic := if Visible(story) then TopicOf(story) else None;
    var counts' := Tally(counts, story);
    assert counts'.Keys == counts.Keys;
    forall k | k in counts'
      ensures counts'[k] == TopicCount(stories + [story], k)
    {
      TopicCountSnoc(stories, story, k);
      assert CountsToward(k, story) <==> topic == Some(k);
    }
  }

  /**
   * `getTopicCounts`: one zero-initialised counter per topic key, incremented
   * once for each displayable story whose section maps to that key.
   */
  method GetTopicCounts(stories: seq<Story>) returns (counts: map<string, nat>)
    ensures forall k :: k in counts <==> k in TopicKeys
    ensures forall k :: k in counts ==> counts[k] == TopicCount(stories, k)
  {
    counts := ZeroCounts();
    for i := 0 to |stories|
      invariant CountsAgree(counts, stories[..i])
    {
      var story := stories[i];
      assert stories[..i + 1] == stories[..i] + [story];
      TallyStep(counts, stories[..i], story);
      counts := Tally(counts, story);
    }
    assert stories[..|stories|] == stories;
  }

  /** A story counts toward some topic: it is displayable and its section is in the table. */
  predicate CountsTowardAny(s: Story) {
    Visible(s) && TopicOf(s).Some?
  }

  /** A story counts toward one of `keys`. */
  predicate CountsTowardOneOf(keys: seq<string>, s: Story) {
    Visible(s) && TopicOf(s).Some? && TopicOf(s).value in keys
  }

  /** The sum of the counts of `keys`. */
  function SumOfCounts(stories: seq<Story>, keys: seq<string>): nat {
    if |keys| == 0 then 0 else TopicCount(stories, keys[0]) + SumOfCounts(stories, keys[1..])
  }

  /** Over pairwise distinct keys, the counts add up to the stories mapped to one of them. */
  lemma {:induction false} SumOfDistinctCounts(stories: seq<Story>, keys: seq<string>)
    requires forall i, j :: 0 <= i < j < |keys| ==> keys[i] != keys[j]
    ensures SumOfCounts(stories, keys) == |Filter(stories, s => CountsTowardOneOf(keys, s))|
  {
    if |keys| == 0 {
      FilterNone(stories, s => CountsTowardOneOf(keys, s));
    } else {
      var rest := keys[1..];
      SumOfDistinctCounts(stories, rest);
      assert forall s :: CountsTowardOneOf(keys, s) == (CountsToward(keys[0], s) || CountsTowardOneOf(rest, s)) by {
        assert forall k :: k in keys <==> k == keys[0] || k in rest;
      }
      assert keys[0] !in rest;
      FilterCountDisjointUnion(stories,
        s => CountsToward(keys[0], s), s => CountsTowardOneOf(rest, s), s => CountsTowardOneOf(keys, s));
    }
  }

  /**
   * The topic counts sum to at most the number of displayable stories, with
   * equality exactly when every displayable story's section is in the table.
   */
  lemma SumOfTopicCounts(stories: seq<Story>)
    ensures SumOfCounts(stories, TopicKeys) <= |Filter(stories, Visible)|
    ensures SumOfCounts(stories, TopicKeys) == |Filter(stories, Visible)|
        <==> forall s :: s in stories && Visible(s) ==> TopicOf(s).Some?
  {
    CatalogMatchesKeys();
    SumOfDistinctCounts(stories, TopicKeys);
    forall s ensures CountsTowardOneOf(TopicKeys, s) == CountsTowardAny(s) {
      TableTargetsAreTopicKeys(OrElse(s.section, ""));
    }
    FilterCountMono(stories, s => CountsTowardOneOf(TopicKeys, s), s => CountsTowardAny(s));
    FilterCountMono(stories, s => CountsTowardAny(s), s => CountsTowardOneOf(TopicKeys, s));
    FilterCountMono(stories, s => CountsTowardAny(s), Visible);
    FilterCountEqual(stories, Visible, s => CountsTowardAny(s));
  }
}

=== FILE: wrappers.dfy ===
/** Optional values: a JSON field that may be absent (`undefined` or `null`). */
module Wrappers {

  datatype Option<+T> = None | Some(value: T)
}
